=== FILE: README.md ===
# Pipeline Command Center: the dashboard's state machine

The Pipeline Command Center dashboard tile (`PipelineDashboard`) simulates live
sales-pipeline metrics. It holds a pressure gauge value (0 to 100), a `stats` record
(leads, warm leads, MQLs, conversion rate, throughput, latency) and a flag saying
whether the "New Lead" toast is shown. Every 2500 ms a timer jitters the gauge,
leads, throughput and latency. The "Release pressure" button lowers the gauge by 20, but not below 0.
The toast can be closed, and its "View Details" button asks the router for
`/lead/12345`. The needle angle and the arc's dash offset are computed from the
gauge value on every render.

This project models that core in Dafny:

- `simulation.dfy`, module `Simulation`. It holds the pure updaters the component
  hands to its state setters: the gauge, leads, throughput and latency jitters,
  the `stats` spread, and the release-pressure update. Each `Math.random()`
  result is a parameter in [0, 1).
- `gauge.dfy`, module `Gauge`. It holds the gauge geometry (the arc's dash offset
  and the needle angle), their inverses, and the rounded percentage shown in the
  centre.
- `dashboard.dfy`, module `Dashboard`. `Step` gives the meaning of each of the four
  inputs: the timer, release, close and view-details. `Replay` gives the state
  after any sequence of inputs. `Run` says which sequences one mounted instance can
  receive. The close and "View Details" buttons exist only while the toast is shown
  (line 245). "View Details" changes the route, which unmounts the dashboard
  (App.tsx:42-43), so it is the last input an instance receives. The class `PipelineDashboard` updates its fields in
  place. Its ghost `history` of inputs keeps those fields equal to `Replay(history)`,
  and the lemmas about `Replay` give the invariants every reachable state has.

Points where the model says more than a first reading of the code suggests:

- `parseFloat(x.toFixed(1))` is modelled over exact reals, following ECMAScript's
  `toFixed`. The sign is set aside and the magnitude goes to the nearest tenth,
  with a tie going to the larger tenth. A magnitude of at least 10^21 passes
  through unchanged. The jitter added to throughput lies in [-0.05, 0.05), so
  rounding always brings a positive tenth back to itself
  (`ThroughputFixedPoint`). In the model, throughput therefore stays at its seed
  value of 1.2 in every reachable state (`ReplayKeepsInv`). With binary doubles it
  can move only for draws extremely close to 0 or 1.
- Latency is floored after clamping. From a value in [100, 200], one tick
  therefore changes it by -5 to +4 (`NextLatency`).

## Model

| member | source | states |
|---|---|---|
| Simulation.Jitter | components/PipelineDashboard.tsx:46 | `(Math.random() - 0.5) * span` lies in [-span/2, span/2) |
| Simulation.NextGauge | components/PipelineDashboard.tsx:45-48 | the new gauge is in [0, 100] from any value; from a value in [0, 100] it moved by at least -2 and less than 2, in the direction of the draw; away from the bounds it moved by exactly the jitter |
| Simulation.NextLeads | components/PipelineDashboard.tsx:53 | leads never decrease and grow by 0, 1 or 2; the increment is 0 exactly when r < 1/3 and 2 exactly when r >= 2/3 |
| Simulation.Round1 | components/PipelineDashboard.tsx:54 | the result has one decimal (below 10^21), keeps the sign, and is within 0.05 of the input, with ties going away from zero |
| Simulation.NextThroughput | components/PipelineDashboard.tsx:54 | throughput moves by at least -0.1 and less than 0.1 per tick, has one decimal afterwards, and has no clamp |
| Simulation.NextLatency | components/PipelineDashboard.tsx:55 | the new latency is an integer in [100, 200] whatever the old one; from [100, 200] it moves by -5 to +4, down for a draw below 0.5 and up otherwise; it is the floor of l + (r - 0.5)·10 when that lies in [100, 200], and 100 or 200 when it falls below or above |
| Simulation.NextStats | components/PipelineDashboard.tsx:51-56 | the spread copies warm, MQLs and conversion unchanged; leads grow by 0 to 2; latency lands in [100, 200]; throughput moves by at least -0.1 and less than 0.1 |
| Simulation.ThroughputFixedPoint | components/PipelineDashboard.tsx:54 | a positive tenth (such as 1.2) is left unchanged by every throughput draw |
| Simulation.ThroughputNotClamped | components/PipelineDashboard.tsx:54 | unlike gauge and latency, throughput can go below zero: from 0 with draw 0 it becomes -0.1 |
| Simulation.Released | components/PipelineDashboard.tsx:217 | the released gauge is max(0, g - 20): never negative, never above the old value, at most 20 lower, and still in [0, 100] |
| Simulation.ReleasedTimesValue | components/PipelineDashboard.tsx:217 | k consecutive releases give max(0, g - 20k) |
| Simulation.FiveReleasesEmpty | components/PipelineDashboard.tsx:217 | five releases bring any reading in [0, 100] to 0 |
| Gauge.DashOffset | components/PipelineDashboard.tsx:63-66 | for readings in [0, 100] the offset lies in [C - 377, C]; it stays positive up to 100, so the arc never closes |
| Gauge.CircumferenceBounds | components/PipelineDashboard.tsx:63-65 | 2·π·80 is between 502.6 and 502.7 and exceeds the maximal fill of 377 |
| Gauge.DashOffsetEnds | components/PipelineDashboard.tsx:63-66 | offset is C at reading 0 and C - 377 (over 125) at reading 100 |
| Gauge.DashOffsetStrictlyDecreasing | components/PipelineDashboard.tsx:66 | a higher reading gives a strictly smaller offset, and conversely |
| Gauge.DashOffsetRoundTrip | components/PipelineDashboard.tsx:66 | offset and reading determine each other (inverse maps in both directions) |
| Gauge.NeedleAngle | components/PipelineDashboard.tsx:181 | the angle is 75 exactly when the reading is 78; readings in [0, 100] give angles in [-42, 108] |
| Gauge.NeedleAngleStrictlyIncreasing | components/PipelineDashboard.tsx:181 | a higher reading turns the needle strictly further, and conversely |
| Gauge.NeedleAngleRoundTrip | components/PipelineDashboard.tsx:181 | angle and reading determine each other (inverse maps in both directions) |
| Gauge.DisplayedLoad | components/PipelineDashboard.tsx:194 | the printed percentage is the nearest integer (half up) and lies in [0, 100] for readings in [0, 100] |
| Dashboard.Step | components/PipelineDashboard.tsx:43-57 | one input changes only its own part of the state: warm, MQLs and conversion never change; only the timer changes stats; only the timer and release change the gauge; only close hides the toast and nothing shows it; only "View Details" adds a navigation, exactly "/lead/12345" |
| Dashboard.StepKeepsInv | components/PipelineDashboard.tsx:30-57 | every input preserves the invariant: gauge in [0, 100], latency in [100, 200], leads at least 12482, warm/MQLs/conversion/throughput at their seeds, every navigation to "/lead/12345" |
| Dashboard.ReplayKeepsInv | components/PipelineDashboard.tsx:30-57 | every state reachable from the initial one by any inputs satisfies that invariant |
| Dashboard.ToastShownIffNeverDismissed | components/PipelineDashboard.tsx:260 | after any inputs the toast is shown if and only if it was never closed |
| Dashboard.NavigationsAreViewClicks | components/PipelineDashboard.tsx:269-272 | the navigations made are exactly one "/lead/12345" per "View Details" click |
| Dashboard.LeadsNeverDecrease | components/PipelineDashboard.tsx:53 | leads after a longer input sequence are at least those after any prefix, and at most 2 more per extra input |
| Dashboard.RenderedGaugeInRange | components/PipelineDashboard.tsx:63-66 | in every reachable state the dash offset is in [C - 377, C], the needle in [-42, 108] degrees, the printed load in [0, 100] |
| Dashboard.DismissIdempotent | components/PipelineDashboard.tsx:260 | closing the toast twice gives the same state as closing it once |
| Dashboard.DismissAndViewCommute | components/PipelineDashboard.tsx:259-272 | the close and "View Details" handlers write disjoint parts of the state, so applied to any state in either order they give the same result (a run delivers at most one of them, see `RunToastClicks`) |
| Dashboard.RunToastClicks | components/PipelineDashboard.tsx:245-272 | in any run, "View Details" is the last input, no toast button is clicked after the toast was closed, and at most one navigation is made |
| Dashboard.FirstTickExample | components/PipelineDashboard.tsx:45-56 | from the initial state, draws 0.75, 0.9, 0.9, 0.8 give gauge 79, leads 12484, throughput 1.2, latency 143 |
| Dashboard.PipelineDashboard.constructor | components/PipelineDashboard.tsx:30-39 | initial state: gauge 78, leads 12482, warm 3891, MQLs 842, conversion 12.4, throughput 1.2, latency 140, toast shown, no navigation |
| Dashboard.PipelineDashboard.Tick | components/PipelineDashboard.tsx:43-57 | while mounted, the gauge and stats become their updaters applied to the old values; toast and navigations are unchanged; the invariant holds afterwards |
| Dashboard.PipelineDashboard.ReleasePressure | components/PipelineDashboard.tsx:217 | the gauge becomes max(0, gauge - 20); nothing else changes |
| Dashboard.PipelineDashboard.Dismiss | components/PipelineDashboard.tsx:260 | callable only while the toast is shown (line 245); the toast is hidden; metrics and navigations are unchanged |
| Dashboard.PipelineDashboard.ViewDetails | components/PipelineDashboard.tsx:269-272 | callable only while the toast is shown (line 245); exactly one navigation to "/lead/12345" is recorded, after which the instance is no longer mounted; gauge, stats and toast are unchanged |

## Left out

- The timer itself (`setInterval`, the 2500 ms period, `clearInterval` on unmount) is left out. A tick is an explicit call of `Tick`, and after unmount no call is made.
- `Math.random` is left out. Each draw is a parameter constrained to [0, 1).
- IEEE-754 arithmetic is left out. All values are exact reals, and `Math.PI` is the decimal 3.141592653589793. Rounding of binary doubles is therefore not captured, including the rare draws at which throughput could leave 1.2.
- React's update scheduling is left out. Each input sees the state left by the previous one, as it does once React has re-rendered. The release handler reads the rendered value rather than using a functional updater, and the model does not capture a click landing between a queued tick and its render. React's development-mode double invocation of updaters is also not captured.
- Clicks during the toast's exit animation are left out. `AnimatePresence` keeps the closed toast on screen for its exit animation, but the model treats its buttons as gone as soon as `showToast` is false. The same holds for a tick arriving between a "View Details" click and the unmount it causes.
- `e.stopPropagation()` in the toast handlers is left out. It is DOM event plumbing, and no enclosing element has a click handler.
- The router is left out. The real `navigate` call, the `/lead/:id` route and the `LeadDetails` page in App.tsx are not part of this model. Only the requested route is recorded, as a ghost sequence.
- Presentation is left out: the JSX layout, styling, icons, framer-motion springs, the needle's shake keyframes, the random conversion-bar width, the SVG dash pattern of 502 units, and `toLocaleString`/`toFixed` display formatting.

=== FILE: dashboard.dfy ===
/**
 The `PipelineDashboard` component's state machine.

 The state is the gauge value, the `stats` record, the toast flag and (as a ghost
 record of what was handed to the router) the navigation requests made so far.
 Four inputs change it: the 2500 ms interval, the "release pressure" button, the
 toast's close button and its "View Details" button. `Step` gives the meaning of
 each input on a state value, `Replay` the state after any sequence of inputs, and
 `Run` says which sequences one mounted instance can actually receive. The class
 `PipelineDashboard` updates its fields in place and keeps them equal to `Replay`
 of the inputs it has received.
 */
module Dashboard {
  import opened Simulation
  import Gauge

  /** The four `Math.random()` results the interval callback draws, in order. */
  datatype Draws = Draws(gauge: real, leads: real, throughput: real, latency: real)

  predicate ValidDraws(d: Draws) {
    IsDraw(d.gauge) && IsDraw(d.leads) && IsDraw(d.throughput) && IsDraw(d.latency)
  }

  /** An input to the component. */
  datatype Event =
    | Interval(draws: Draws)   // the timer fires
    | ReleaseClick             // "Release pressure"
    | DismissClick             // the toast's close button
    | ViewDetailsClick         // the toast's "View Details" button

  predicate WellFormed(e: Event) {
    e.Interval? ==> ValidDraws(e.draws)
  }

  predicate AllWellFormed(es: seq<Event>) {
    forall i :: 0 <= i < |es| ==> WellFormed(es[i])
  }

  /** The route "View Details" asks the router for. */
  const DetailsRoute: string := "/lead/12345"

  datatype State = State(gauge: real, stats: Stats, showToast: bool, navigations: seq<string>)

  /** The state on mount: gauge 78, the seed stats, the toast shown, nothing navigated. */
  const Initial: State := State(InitialGauge, InitialStats, true, [])

  /** The effect of one input. */
  function Step(s: State, e: Event): (t: State)
    requires WellFormed(e)
    ensures t.stats.warm == s.stats.warm && t.stats.mqls == s.stats.mqls
    ensures t.stats.conversion == s.stats.conversion
    ensures s.stats.leads <= t.stats.leads <= s.stats.leads + 2
    ensures !e.Interval? ==> t.stats == s.stats
    ensures !e.Interval? && !e.ReleaseClick? ==> t.gauge == s.gauge
    ensures t.showToast == (s.showToast && !e.DismissClick?)
    ensures t.navigations == s.navigations + (if e.ViewDetailsClick? then [DetailsRoute] else [])
  {
    match e
    case Interval(d) =>
      s.(gauge := NextGauge(s.gauge, d.gauge),
         stats := NextStats(s.stats, d.leads, d.throughput, d.latency))
    case ReleaseClick => s.(gauge := Released(s.gauge))
    case DismissClick => s.(showToast := false)
    case ViewDetailsClick => s.(navigations := s.navigations + [DetailsRoute])
  }

  /** The state after the inputs `es`, oldest first. */
  function Replay(es: seq<Event>): State
    requires AllWellFormed(es)
  {
    if es == [] then Initial else Step(Replay(es[..|es| - 1]), es[|es| - 1])
  }

  /** The number of "View Details" clicks in `es`. */
  function ViewCount(es: seq<Event>): nat {
    if es == [] then 0
    else ViewCount(es[..|es| - 1]) + (if es[|es| - 1].ViewDetailsClick? then 1 else 0)
  }

  /** What holds in every state the component can reach. */
  predicate Inv(s: State) {
    && 0.0 <= s.gauge <= 100.0
    && InitialStats.leads <= s.stats.leads
    && s.stats.warm == InitialStats.warm
    && s.stats.mqls == InitialStats.mqls
    && s.stats.conversion == InitialStats.conversion
    && s.stats.throughput == InitialStats.throughput
    && 100 <= s.stats.latency <= 200
    && (forall i :: 0 <= i < |s.navigations| ==> s.navigations[i] == DetailsRoute)
  }

  /**
   The dashboard is still mounted: "View Details" changes the route to the lead's
   page, which unmounts the dashboard and clears its timer, so a navigation is the
   last input an instance receives.
   */
  predicate Mounted(s: State) {
    s.navigations == []
  }

  /**
   Whether the mounted dashboard can receive `e` in state `s`: the close and
   "View Details" buttons are rendered only while the toast is shown.
   */
  predicate Enabled(s: State, e: Event) {
    Mounted(s) && (e.DismissClick? || e.ViewDetailsClick? ==> s.showToast)
  }

  /** `es` is a sequence of inputs one mounted instance can receive, each enabled when it arrives. */
  predicate Run(es: seq<Event>) {
    && AllWellFormed(es)
    && forall k :: 0 <= k < |es| ==> Enabled(Replay(es[..k]), es[k])
  }

  lemma ReplaySnoc(es: seq<Event>, e: Event)
    requires AllWellFormed(es) && WellFormed(e)
    ensures AllWellFormed(es + [e])
    ensures Replay(es + [e]) == Step(Replay(es), e)
  {
    assert (es + [e])[..|es|] == es;
  }

  /** Every input keeps the invariant; throughput stays at its seed 1.2 because 1.2 is a fixed point. */
  lemma StepKeepsInv(s: State, e: Event)
    requires Inv(s) && WellFormed(e)
    ensures Inv(Step(s, e))
  {
    if e.Interval? {
      assert 12 as real / 10.0 == InitialStats.throughput;
      ThroughputFixedPoint(12, e.draws.throughput);
    }
  }

  /** Every reachable state satisfies the invariant. */
  lemma {:induction false} ReplayKeepsInv(es: seq<Event>)
    requires AllWellFormed(es)
    ensures Inv(Replay(es))
  {
    if es != [] {
      ReplayKeepsInv(es[..|es| - 1]);
      StepKeepsInv(Replay(es[..|es| - 1]), es[|es| - 1]);
    }
  }

  /** The toast is visible exactly when it has never been dismissed: nothing shows it again. */
  lemma {:induction false} ToastShownIffNeverDismissed(es: seq<Event>)
    requires AllWellFormed(es)
    ensures Replay(es).showToast <==> DismissClick !in es
  {
    if es != [] {
      var front := es[..|es| - 1];
      assert es == front + [es[|es| - 1]];
      ToastShownIffNeverDismissed(front);
    }
  }

  /** Each "View Details" click makes exactly one request, for "/lead/12345", and nothing else does. */
  lemma {:induction false} NavigationsAreViewClicks(es: seq<Event>)
    requires AllWellFormed(es)
    ensures Replay(es).navigations == seq(ViewCount(es), _ => DetailsRoute)
  {
    if es != [] {
      NavigationsAreViewClicks(es[..|es| - 1]);
    }
  }

  /** Leads never go down, and grow by at most 2 per input. */
  lemma {:induction false} LeadsNeverDecrease(es: seq<Event>, k: nat)
    requires AllWellFormed(es) && k <= |es|
    ensures Replay(es[..k]).stats.leads <= Replay(es).stats.leads
    ensures Replay(es).stats.leads <= Replay(es[..k]).stats.leads + 2 * (|es| - k)
  {
    if k < |es| {
      var front := es[..|es| - 1];
      assert front[..k] == es[..k];
      LeadsNeverDecrease(front, k);
    } else {
      assert es[..k] == es;
    }
  }

  lemma RunSnoc(es: seq<Event>, e: Event)
    requires Run(es) && WellFormed(e) && Enabled(Replay(es), e)
    ensures Run(es + [e])
  {
    ReplaySnoc(es, e);
    forall k | 0 <= k < |es| + 1
      ensures Enabled(Replay((es + [e])[..k]), (es + [e])[k])
    {
      if k < |es| {
        assert (es + [e])[..k] == es[..k];
      } else {
        assert (es + [e])[..k] == es;
      }
    }
  }

  lemma {:induction false} NoViewClickMeansNoNavigation(es: seq<Event>)
    requires forall i :: 0 <= i < |es| ==> !es[i].ViewDetailsClick?
    ensures ViewCount(es) == 0
  {
    if es != [] {
      NoViewClickMeansNoNavigation(es[..|es| - 1]);
    }
  }

  /**
   In a run, "View Details" can only be the last input, nothing on the toast can be
   clicked after it was closed, and at most one navigation is ever made.
   */
  lemma RunToastClicks(es: seq<Event>)
    requires Run(es)
    ensures forall i :: 0 <= i < |es| - 1 ==> !es[i].ViewDetailsClick?
    ensures forall i, j :: 0 <= i < j < |es| && es[i].DismissClick? ==>
              !es[j].DismissClick? && !es[j].ViewDetailsClick?
    ensures |Replay(es).navigations| <= 1
  {
    forall i | 0 <= i < |es| - 1
      ensures !es[i].ViewDetailsClick?
    {
      assert es[..i + 1][..i] == es[..i];
      assert Enabled(Replay(es[..i + 1]), es[i + 1]);
    }
    forall i, j | 0 <= i < j < |es| && es[i].DismissClick?
      ensures !es[j].DismissClick? && !es[j].ViewDetailsClick?
    {
      assert es[..j][i] == es[i];
      ToastShownIffNeverDismissed(es[..j]);
      assert Enabled(Replay(es[..j]), es[j]);
    }
    NavigationsAreViewClicks(es);
    if es != [] {
      var front := es[..|es| - 1];
      NoViewClickMeansNoNavigation(front);
    }
  }

  /** What the gauge draws in any reachable state stays within its design range. */
  lemma RenderedGaugeInRange(es: seq<Event>)
    requires AllWellFormed(es)
    ensures Gauge.Circumference - Gauge.MaxFillLength <= Gauge.DashOffset(Replay(es).gauge) <= Gauge.Circumference
    ensures -42.0 <= Gauge.NeedleAngle(Replay(es).gauge) <= 108.0
    ensures 0 <= Gauge.DisplayedLoad(Replay(es).gauge) <= 100
  {
    ReplayKeepsInv(es);
  }

  /** Closing the toast twice is the same as closing it once. */
  lemma DismissIdempotent(s: State)
    ensures Step(Step(s, DismissClick), DismissClick) == Step(s, DismissClick)
  {
  }

  /** Closing the toast and asking for details commute. */
  lemma DismissAndViewCommute(s: State)
    ensures Step(Step(s, DismissClick), ViewDetailsClick) == Step(Step(s, ViewDetailsClick), DismissClick)
  {
  }

  /**
   One tick from the initial state with draws that add 1 to the gauge, 2 to the
   leads, 0.04 before rounding to the throughput and 3 to the latency.
   */
  lemma FirstTickExample()
    ensures Step(Initial, Interval(Draws(0.75, 0.9, 0.9, 0.8)))
         == State(79.0, Stats(12484, 3891, 842, 12.4, 1.2, 143), true, [])
  {
    assert (0.9 * 3.0).Floor == 2;
    assert (1.24 * 10.0 + 0.5).Floor == 12;
    assert (143.0).Floor == 143;
  }

  /** The mounted component. */
  class PipelineDashboard {
    var gauge: real
    var stats: Stats
    var showToast: bool
    /** The routes handed to the router so far. */
    ghost var navigations: seq<string>
    /** The inputs received so far, oldest first. */
    ghost var history: seq<Event>

    ghost function Snapshot(): State
      reads this
    {
      State(gauge, stats, showToast, navigations)
    }

    ghost predicate Valid()
      reads this
    {
      Run(history) && Snapshot() == Replay(history)
    }

    constructor ()
      ensures Valid() && history == []
      ensures gauge == 78.0 && showToast && navigations == []
      ensures stats == Stats(12482, 3891, 842, 12.4, 1.2, 140)
    {
      gauge := InitialGauge;
      stats := InitialStats;
      showToast := true;
      navigations := [];
      history := [];
    }

    /** The interval callback: both updaters run on the latest state. */
    method Tick(rGauge: real, rLeads: real, rThroughput: real, rLatency: real)
      requires Valid()
      requires Mounted(Snapshot())
      requires IsDraw(rGauge) && IsDraw(rLeads) && IsDraw(rThroughput) && IsDraw(rLatency)
      modifies this
      ensures Valid() && Inv(Snapshot())
      ensures history == old(history) + [Interval(Draws(rGauge, rLeads, rThroughput, rLatency))]
      ensures gauge == NextGauge(old(gauge), rGauge)
      ensures stats == NextStats(old(stats), rLeads, rThroughput, rLatency)
      ensures showToast == old(showToast) && navigations == old(navigations)
    {
      var e := Interval(Draws(rGauge, rLeads, rThroughput, rLatency));
      ghost var before := history;
      ghost var next := Step(Snapshot(), e);
      assert Enabled(Replay(before), e);
      ReplaySnoc(before, e);
      RunSnoc(before, e);
      ReplayKeepsInv(before + [e]);
      gauge := NextGauge(gauge, rGauge);
      stats := NextStats(stats, rLeads, rThroughput, rLatency);
      history := before + [e];
      assert Snapshot() == next;
    }

    /** The "release pressure" button. */
    method ReleasePressure()
      requires Valid() && Mounted(Snapshot())
      modifies this
      ensures Valid() && Inv(Snapshot())
      ensures history == old(history) + [ReleaseClick]
      ensures gauge == Released(old(gauge))
      ensures stats == old(stats) && showToast == old(showToast) && navigations == old(navigations)
    {
      ReplaySnoc(history, ReleaseClick);
      RunSnoc(history, ReleaseClick);
      gauge := Released(gauge);
      history := history + [ReleaseClick];
      ReplayKeepsInv(history);
    }

    /** The toast's close button. */
    method Dismiss()
      requires Valid() && Mounted(Snapshot()) && showToast
      modifies this
      ensures Valid() && Inv(Snapshot())
      ensures history == old(history) + [DismissClick]
      ensures !showToast
      ensures gauge == old(gauge) && stats == old(stats) && navigations == old(navigations)
    {
      ReplaySnoc(history, DismissClick);
      RunSnoc(history, DismissClick);
      showToast := false;
      history := history + [DismissClick];
      ReplayKeepsInv(history);
    }

    /** The toast's "View Details" button: one request for the sample lead's route. */
    method ViewDetails()
      requires Valid() && Mounted(Snapshot()) && showToast
      modifies this
      ensures Valid() && Inv(Snapshot())
      ensures history == old(history) + [ViewDetailsClick]
      ensures navigations == old(navigations) + [DetailsRoute] && !Mounted(Snapshot())
      ensures gauge == old(gauge) && stats == old(stats) && showToast == old(showToast)
    {
      ReplaySnoc(history, ViewDetailsClick);
      RunSnoc(history, ViewDetailsClick);
      navigations := navigations + [DetailsRoute];
      history := history + [ViewDetailsClick];
      ReplayKeepsInv(history);
    }
  }
}

=== FILE: gauge.dfy ===
/**
 Gauge geometry: how the pressure value drives the progress arc of the circular
 gauge (an SVG circle of radius 80 whose dash offset hides the unfilled part),
 the rotation of the needle, and the whole-number percentage printed in the middle.
 All of it is recomputed from the current value on every render.
 */
module Gauge {

  /** `Math.PI`, as the decimal JavaScript prints for it. */
  const Pi: real := 3.141592653589793
  const Radius: real := 80.0
  const Circumference: real := 2.0 * Pi * Radius
  /** Arc length drawn at a reading of 100: less than the circumference. */
  const MaxFillLength: real := 377.0

  /** The arc's `strokeDashoffset`: the circumference minus the filled length. */
  function DashOffset(g: real): (d: real)
    ensures 0.0 <= g <= 100.0 ==> Circumference - MaxFillLength <= d <= Circumference
    ensures g <= 100.0 ==> 0.0 < d
  {
    Circumference - (g / 100.0) * MaxFillLength
  }

  /** The reading that a given dash offset displays. */
  function GaugeOfOffset(d: real): real {
    (Circumference - d) * 100.0 / MaxFillLength
  }

  /** The needle's rotation in degrees: 75 at the reference reading 78, 1.5 degrees per point. */
  function NeedleAngle(g: real): (a: real)
    ensures a == 75.0 <==> g == 78.0
    ensures 0.0 <= g <= 100.0 ==> -42.0 <= a <= 108.0
  {
    75.0 + (g - 78.0) * 1.5
  }

  /** The reading that a given needle angle displays. */
  function GaugeOfAngle(a: real): real {
    78.0 + (a - 75.0) / 1.5
  }

  /** `Math.round(gaugeValue)`: the nearest whole number, a half rounding up. */
  function DisplayedLoad(g: real): (n: int)
    ensures g - 0.5 < n as real <= g + 0.5
    ensures 0.0 <= g <= 100.0 ==> 0 <= n <= 100
  {
    (g + 0.5).Floor
  }

  lemma CircumferenceBounds()
    ensures 502.6 < Circumference < 502.7
    ensures MaxFillLength < Circumference
  {
  }

  /** At reading 0 the offset equals the circumference; at 100 it leaves a gap of C - 377. */
  lemma DashOffsetEnds()
    ensures DashOffset(0.0) == Circumference
    ensures DashOffset(100.0) == Circumference - MaxFillLength
    ensures DashOffset(100.0) > 125.0
  {
  }

  /** A higher reading always draws a longer arc, and conversely. */
  lemma DashOffsetStrictlyDecreasing(g1: real, g2: real)
    ensures g1 < g2 <==> DashOffset(g2) < DashOffset(g1)
  {
  }

  /** The dash offset determines the reading: the two maps are inverse to each other. */
  lemma DashOffsetRoundTrip(g: real, d: real)
    ensures GaugeOfOffset(DashOffset(g)) == g
    ensures DashOffset(GaugeOfOffset(d)) == d
  {
  }

  /** A higher reading always turns the needle further, and conversely. */
  lemma NeedleAngleStrictlyIncreasing(g1: real, g2: real)
    ensures g1 < g2 <==> NeedleAngle(g1) < NeedleAngle(g2)
  {
  }

  /** The needle angle determines the reading: the two maps are inverse to each other. */
  lemma NeedleAngleRoundTrip(g: real, a: real)
    ensures GaugeOfAngle(NeedleAngle(g)) == g
    ensures NeedleAngle(GaugeOfAngle(a)) == a
  {
  }
}

=== FILE: simulation.dfy ===
/**
 The live-data simulation of the pipeline dashboard: the state updaters that the
 component hands to its setters every 2500 ms, and the "release pressure" update.

 Each `Math.random()` draw is a parameter `r` with `0.0 <= r < 1.0`; the interval
 callback draws, in order, one value for the gauge, then one each for leads, throughput
 and latency.
 */
module Simulation {

  /** The `stats` record of the component. */
  datatype Stats = Stats(
    leads: int,
    warm: int,
    mqls: int,
    conversion: real,
    throughput: real,
    latency: int)

  /** The values the component starts with. */
  const InitialGauge: real := 78.0
  const InitialStats: Stats := Stats(12482, 3891, 842, 12.4, 1.2, 140)

  /** A value `Math.random()` can return. */
  predicate IsDraw(r: real) {
    0.0 <= r < 1.0
  }

  function Min(a: real, b: real): real {
    if a <= b then a else b
  }

  function Max(a: real, b: real): real {
    if a <= b then b else a
  }

  function Abs(x: real): real {
    if x < 0.0 then -x else x
  }

  /** `(Math.random() - 0.5) * span`: a symmetric jitter of total width `span`. */
  function Jitter(r: real, span: real): (j: real)
    requires IsDraw(r) && 0.0 < span
    ensures -span / 2.0 <= j < span / 2.0
  {
    (r - 0.5) * span
  }

  /** Gauge updater: the value moves by a jitter in [-2, 2) and is clamped to [0, 100]. */
  function NextGauge(g: real, r: real): (g': real)
    requires IsDraw(r)
    ensures 0.0 <= g' <= 100.0
    ensures 0.0 <= g <= 100.0 ==> -2.0 <= g' - g < 2.0
    ensures 0.0 <= g <= 100.0 ==> (r < 0.5 ==> g' <= g) && (0.5 <= r ==> g <= g')
    ensures 2.0 <= g <= 98.0 ==> g' - g == (r - 0.5) * 4.0
  {
    Min(100.0, Max(0.0, g + Jitter(r, 4.0)))
  }

  /** Leads updater: `leads + Math.floor(Math.random() * 3)`. */
  function NextLeads(leads: int, r: real): (n: int)
    requires IsDraw(r)
    ensures leads <= n <= leads + 2
    ensures n == leads <==> r < 1.0 / 3.0
    ensures n == leads + 2 <==> 2.0 / 3.0 <= r
  {
    leads + (r * 3.0).Floor
  }

  /**
   `parseFloat(x.toFixed(1))` over exact reals: the sign is set aside, the
   magnitude goes to the nearest tenth with a tie going to the larger tenth, and
   a magnitude of at least 10^21 is passed through unchanged.
   */
  function Round1(x: real): (y: real)
    ensures Abs(x) < 1000000000000000000000.0 ==> IsTenth(y)
    ensures 0.0 <= x ==> 0.0 <= y && -0.05 < y - x <= 0.05
    ensures x < 0.0 ==> y <= 0.0 && -0.05 <= y - x < 0.05
  {
    if Abs(x) >= 1000000000000000000000.0 then x
    else
      var n := (Abs(x) * 10.0 + 0.5).Floor;
      assert IsTenth(n as real / 10.0) && IsTenth((-n) as real / 10.0) by {
        assert n as real / 10.0 * 10.0 == n as real;
        assert (-n) as real / 10.0 * 10.0 == (-n) as real;
      }
      if x < 0.0 then (-n) as real / 10.0 else n as real / 10.0
  }

  /** `y` has at most one decimal. */
  predicate IsTenth(y: real) {
    (y * 10.0).Floor as real == y * 10.0
  }

  /** Throughput updater: a jitter in [-0.05, 0.05), then rounded to one decimal; never clamped. */
  function NextThroughput(t: real, r: real): (t': real)
    requires IsDraw(r)
    ensures -0.1 <= t' - t < 0.1
    ensures Abs(t) < 100000000000000000000.0 ==> IsTenth(t')
  {
    Round1(t + Jitter(r, 0.1))
  }

  /** Latency updater: a jitter in [-5, 5), clamped to [100, 200], then floored. */
  function NextLatency(l: int, r: real): (n: int)
    requires IsDraw(r)
    ensures 100 <= n <= 200
    ensures 100 <= l <= 200 ==> -5 <= n - l <= 4
    ensures 100 <= l <= 200 ==> (r < 0.5 ==> n <= l) && (0.5 <= r ==> l <= n)
    ensures var x := l as real + Jitter(r, 10.0);
      && (100.0 <= x <= 200.0 ==> n as real <= x < n as real + 1.0)
      && (x < 100.0 ==> n == 100)
      && (200.0 < x ==> n == 200)
  {
    Max(100.0, Min(200.0, l as real + Jitter(r, 10.0))).Floor
  }

  /** The stats updater: the spread copies every field the tick does not name. */
  function NextStats(s: Stats, rLeads: real, rThroughput: real, rLatency: real): (n: Stats)
    requires IsDraw(rLeads) && IsDraw(rThroughput) && IsDraw(rLatency)
    ensures n.warm == s.warm && n.mqls == s.mqls && n.conversion == s.conversion
    ensures s.leads <= n.leads <= s.leads + 2
    ensures -0.1 <= n.throughput - s.throughput < 0.1
    ensures 100 <= n.latency <= 200
  {
    s.(leads := NextLeads(s.leads, rLeads),
       throughput := NextThroughput(s.throughput, rThroughput),
       latency := NextLatency(s.latency, rLatency))
  }

  /** A tenth `k / 10` with `k >= 1` is never moved by the throughput updater. */
  lemma ThroughputFixedPoint(k: int, r: real)
    requires 1 <= k < 1000000000000000000000
    requires IsDraw(r)
    ensures NextThroughput(k as real / 10.0, r) == k as real / 10.0
  {
    var x := k as real / 10.0 + Jitter(r, 0.1);
    assert 0.0 < x < 1000000000000000000000.0;
    assert k as real <= x * 10.0 + 0.5 < k as real + 1.0;
    assert (x * 10.0 + 0.5).Floor == k;
  }

  /** Throughput is not floored at zero, unlike the gauge and latency. */
  lemma ThroughputNotClamped()
    ensures NextThroughput(0.0, 0.0) == -0.1
  {
    assert (0.05 * 10.0 + 0.5).Floor == 1;
  }

  /** Release-pressure update: `Math.max(0, gauge - 20)`. */
  function Released(g: real): (g': real)
    ensures 0.0 <= g' && g - 20.0 <= g'
    ensures g' == 0.0 || g' == g - 20.0
    ensures 0.0 <= g ==> g' <= g
    ensures 0.0 <= g <= 100.0 ==> 0.0 <= g' <= 100.0
  {
    Max(0.0, g - 20.0)
  }

  /** The gauge after `presses` consecutive clicks on "release pressure". */
  function ReleasedTimes(g: real, presses: nat): real {
    if presses == 0 then g else Released(ReleasedTimes(g, presses - 1))
  }

  /** Repeated releases subtract 20 per click and stop at zero. */
  lemma {:induction false} ReleasedTimesValue(g: real, presses: nat)
    requires 0.0 <= g
    ensures ReleasedTimes(g, presses) == Max(0.0, g - 20.0 * presses as real)
  {
    if presses > 0 {
      ReleasedTimesValue(g, presses - 1);
    }
  }

  /** Five clicks empty any gauge reading in [0, 100]. */
  lemma FiveReleasesEmpty(g: real)
    requires 0.0 <= g <= 100.0
    ensures ReleasedTimes(g, 5) == 0.0
  {
    ReleasedTimesValue(g, 5);
  }
}
